=== FILE: README.md ===
# Fruit Fuel storefront — a verified model

Fruit Fuel is a small client-side fruit shop with a catalog, a cart and membership plans. The shared
state lives in one application store; several pages also keep state of their own. The
carousel's slide cursor and list and the login page's form and mode are modelled as the classes
`Carousel` and `LoginForm`; the products page's search term and category are parameters of its
filter; the cart page's payment-dialog flag is not kept. The reducer `appReducer` turns the current
state and a dispatched action into the next state. The pages decide which action to dispatch and
derive prices, counts and visible lists from the state. This project models that core in Dafny:

- `Types` (types.dfy): the domain records. They are users, membership plans, products, cart
  lines, orders and the application state. The closed string unions become enumerations and the
  optional fields become `Option`.
- `AppContext` (app_context.dfy): the seed catalog and plan list, the action set, and the
  reducer as the pure function `Step`. The one-cell store is the class `Store`; its `Dispatch`
  replaces the state by `Step` and keeps the cart at one line per product id.
- `CartPage` (cart_page.dfy): the quantity buttons, with 0 turned into a removal. It also holds
  subtotal, membership discount and total in exact arithmetic, and checkout / payment
  confirmation.
- `ProductsPage` (products_page.dfy): the case-insensitive search and category filter, the
  member price on each card, and the add-to-cart button.
- `MembershipCarousel` (membership_carousel.dfy): the tiered visibility policy. The slide cursor
  is the class `Carousel`, with wrap-around `Next`/`Prev` and dot clicks.
- `Header` (header.dfy): the cart badge count, the Admin link and the Login link.
- `MembershipPage` (membership_page.dfy): the plan cards, the sign-in guard on plan selection,
  the "Current Plan" label and the savings badge.
- `LoginPage` (login_page.dfy): the login form as the class `LoginForm`, and the customer built
  on submit.
- `Seqs` (seqs.dfy): order-preserving `Filter` and the subsequence relation. Every
  `Array.prototype.filter` of the source is stated with these.

Money and discount percentages are exact `real`s. Quantities are unbounded `int`s, since the
reducer stores whatever quantity it is handed.

Four behaviours of the code worth knowing:

- The seed catalog has three featured products, ids 1, 2 and 3, so a non-member's carousel shows
  all three.
- UPDATE_CART_QUANTITY with 0 keeps the line at quantity 0. Only the cart page's `updateQuantity`
  turns a requested 0 into REMOVE_FROM_CART.
- SET_MEMBERSHIP with nobody signed in is not an error. The user simply stays absent.
- ADD_TO_CART does not check that the product is in the catalog or in stock.

## Model

| member | source | states |
|---|---|---|
| AppContext.SeedCatalogShape | src/context/AppContext.tsx:11-112 | Seed product ids are distinct and every seed product is in stock. Exactly the first three products are featured. Seed plan discounts lie in [0, 100]. |
| AppContext.Find | src/context/AppContext.tsx:119 | The `find` result is present iff the id is in the cart. When present it is the first line with that id. |
| AppContext.Step | src/context/AppContext.tsx:114-158 | No action touches products, orders or plans. Only SET_USER and SET_MEMBERSHIP touch the user. Those two and an unknown action leave the cart as it was. |
| AppContext.SetUserKeepsCart | src/context/AppContext.tsx:116-117 | SET_USER installs exactly the payload, sign-out included, and keeps the cart. |
| AppContext.SetMembershipOnlyMembership | src/context/AppContext.tsx:150-154 | A signed-in user gets exactly the new membership and keeps id, name, email, role and avatar. With nobody signed in the user stays absent. |
| AppContext.UnrecognizedIsNoop | src/context/AppContext.tsx:155-156 | An action type that is none of the six handled types returns the state unchanged. |
| AppContext.AddExistingIncrements | src/context/AppContext.tsx:119-128 | Adding a product already in the cart raises every line with its id by exactly 1. Length, order, products and all other quantities are unchanged. |
| AppContext.AddNewAppends | src/context/AppContext.tsx:130-133 | Adding a product not in the cart appends one line with quantity 1 after the existing lines. |
| AppContext.AddTwiceOneLine | src/context/AppContext.tsx:118-133 | Adding the same new product twice yields one line of quantity 2 after the old lines, not two lines. |
| AppContext.RemoveDropsId | src/context/AppContext.tsx:134-138 | After removal no line has the id. A line remains iff it was there with a different id. Every remaining line keeps all its copies. The result is a subsequence of the old cart. |
| AppContext.RemoveAbsentIsNoop | src/context/AppContext.tsx:134-138 | Removing an absent id leaves the state unchanged. |
| AppContext.RemoveIdempotent | src/context/AppContext.tsx:134-138 | Removing an id twice equals removing it once. |
| AppContext.UpdateSetsQuantity | src/context/AppContext.tsx:139-147 | Every line with the id gets exactly the payload quantity, with no clamping, zero and negatives included. Other lines, length and order are unchanged. |
| AppContext.UpdateAbsentIsNoop | src/context/AppContext.tsx:139-147 | Updating an absent id leaves the state unchanged. |
| AppContext.UpdateToZeroKeepsLine | src/context/AppContext.tsx:139-147 | Updating a present id to 0 keeps the line, so the result differs from REMOVE_FROM_CART. |
| AppContext.ClearCartEmpties | src/context/AppContext.tsx:148-149 | CLEAR_CART empties the cart, changes no other field and is idempotent. |
| AppContext.StepKeepsIdsDistinct | src/context/AppContext.tsx:114-158 | If the cart has at most one line per product id before any action, it still does after it. |
| AppContext.Store.constructor | src/context/AppContext.tsx:161 | The store starts from the seed state and satisfies the one-line-per-id invariant. |
| AppContext.Store.Dispatch | src/context/AppContext.tsx:161 | Dispatch replaces the state by the reducer's result and preserves the one-line-per-id invariant. |
| CartPage.UpdateQuantityAction | src/pages/Cart.tsx:9-15 | A requested quantity of 0 yields REMOVE_FROM_CART and any other quantity UPDATE_CART_QUANTITY with exactly that quantity, both for the line's product id. |
| CartPage.ZeroRequestRemoves | src/pages/Cart.tsx:9-15 | Requesting quantity 0 has exactly the effect of REMOVE_FROM_CART. |
| CartPage.MinusOnSingleUnitRemoves | src/pages/Cart.tsx:111 | The minus button on a one-unit line removes that product's line instead of storing 0. |
| CartPage.PlusRequestsOneMore | src/pages/Cart.tsx:120 | The plus button leaves that line at exactly one unit more, with the cart length unchanged. |
| CartPage.ButtonsKeepQuantitiesPositive | src/pages/Cart.tsx:109-124 | Starting from lines of at least one unit, the plus and minus buttons never leave a line at 0 or below. |
| CartPage.MembershipDiscount | src/pages/Cart.tsx:21-25 | The discount percentage is the signed-in user's membership discount, and 0 without a user or a membership. |
| CartPage.Subtotal | src/pages/Cart.tsx:27-29 | The subtotal (the `reduce` fold) equals the plain sum of `price * quantity` over the lines. |
| CartPage.SumFromIsLineSum | src/pages/Cart.tsx:27-29 | The left fold of `reduce` equals its start value plus the plain sum of `price * quantity`. |
| CartPage.LineSumConcat | src/pages/Cart.tsx:27-29 | The sum of line totals over two concatenated carts is the sum of their sums. |
| CartPage.LineSumPermutation | src/pages/Cart.tsx:27-29 | Carts with the same lines as a multiset have equal sums of line totals. |
| CartPage.SubtotalIgnoresOrder | src/pages/Cart.tsx:27-29 | The subtotal of an empty cart is 0 and reordering the lines does not change it. |
| CartPage.SubtotalNonNegative | src/pages/Cart.tsx:27-29 | With non-negative prices and quantities the subtotal is non-negative. |
| CartPage.LineSumNonNegative | src/pages/Cart.tsx:27-29 | With non-negative prices and quantities the sum of line totals is non-negative. |
| CartPage.Discount | src/pages/Cart.tsx:31-35 | The discount is 0 at a 0% rate. For a non-negative subtotal and a rate in [0, 100] it lies between 0 and the subtotal. |
| CartPage.Total | src/pages/Cart.tsx:37-39 | For every cart the total is the subtotal scaled by the remaining percentage, so the subtotal itself at a 0% rate. For a non-negative subtotal and a rate in [0, 100] it lies between 0 and the subtotal. |
| CartPage.NoMembershipNoDiscount | src/pages/Cart.tsx:21-35 | Without a user or a membership the discount percentage and the discount are 0, and the total equals the subtotal. |
| CartPage.TotalWithinSubtotal | src/pages/Cart.tsx:31-39 | With non-negative prices and quantities and a discount within [0, 100], the total is the subtotal scaled by the remaining percentage and lies between 0 and the subtotal. |
| CartPage.WeeklyBoostExample | src/pages/Cart.tsx:27-39 | Two seed strawberries and one seed mango for any member with a 10% discount (such as the Weekly Boost plan) give subtotal 21.47, discount 2.147 and total 19.323. |
| CartPage.Checkout | src/pages/Cart.tsx:41-47 | The payment dialog opens iff a user is signed in. The visitor is sent to sign in iff nobody is. |
| CartPage.ConfirmPaymentEmptiesCart | src/pages/Cart.tsx:229-233 | Confirming payment empties the cart, leaves subtotal 0 and keeps the user. |
| ProductsPage.IncludesIffOccurs | src/pages/Products.tsx:19-20 | The left-to-right `includes` scan succeeds iff the term occurs as a contiguous slice at some position. |
| ProductsPage.FilterProducts | src/pages/Products.tsx:18-23 | The listing is no longer than the catalog and holds exactly the catalog products that match the term and the category (copies and order: `FilterProductsKeeps`). |
| ProductsPage.FilterProductsKeeps | src/pages/Products.tsx:18-23 | A product is listed iff it is in the catalog, its lower-cased name or description contains the lower-cased term, and the category is "all" or its own. The listing keeps catalog order and every copy of a listed product. |
| ProductsPage.EmptySearchListsAll | src/pages/Products.tsx:18-23 | An empty search with category "all" lists the whole catalog. |
| ProductsPage.CategoryNarrowsAll | src/pages/Products.tsx:21 | The listing for a category is a subsequence of the "all" listing for the same term. |
| ProductsPage.DiscountedPrice | src/pages/Products.tsx:35-38 | Without a positive discount the price is unchanged. For a non-negative price and a discount up to 100 the member price lies between 0 and the price. |
| ProductsPage.DiscountedPriceBounds | src/pages/Products.tsx:29-38 | For a discount in [0, 100] the member price is the price times the remaining percentage and lies between 0 and the price. |
| ProductsPage.BadgeIffReduced | src/pages/Products.tsx:88 | For a positive price the discount badge shows iff the member price is below the price. Without a membership there is no badge and no reduction. |
| ProductsPage.AddToCartIgnoresStock | src/pages/Products.tsx:25-27 | The add-to-cart button puts the product in the cart whatever its stock flag, and the catalog is unchanged. |
| MembershipCarousel.VisibleProducts | src/components/MembershipCarousel.tsx:11-30 | Every shown product is a catalog product. A non-member sees at most three, all featured (the full policy: the tier lemmas below). |
| MembershipCarousel.VisibleInCatalogOrder | src/components/MembershipCarousel.tsx:11-30 | Every tier's list is a subsequence of the catalog. |
| MembershipCarousel.MonthlySeesAll | src/components/MembershipCarousel.tsx:16-18 | A monthly member sees the whole catalog. |
| MembershipCarousel.WeeklySeesFeaturedOrBerries | src/components/MembershipCarousel.tsx:19-21 | A weekly member sees exactly the catalog products that are featured or berries, each as often as in the catalog. |
| MembershipCarousel.DailySeesFeatured | src/components/MembershipCarousel.tsx:22-24 | A daily member sees exactly the featured catalog products, each as often as in the catalog. |
| MembershipCarousel.NonMemberSeesFirstThreeFeatured | src/components/MembershipCarousel.tsx:26-28 | A non-member sees the first min(3, #featured) featured products, all featured catalog products. |
| MembershipCarousel.TiersNest | src/components/MembershipCarousel.tsx:15-29 | The lists nest as subsequences: none, then daily, then weekly, then monthly. |
| MembershipCarousel.SeedNonMemberSelection | src/components/MembershipCarousel.tsx:26-28 | On the seed catalog a non-member sees products 1, 2 and 3. |
| MembershipCarousel.NextIndex | src/components/MembershipCarousel.tsx:32-34 | For n > 0 and a non-negative cursor, `nextSlide` lands in [0, n). |
| MembershipCarousel.PrevIndex | src/components/MembershipCarousel.tsx:36-38 | For n > 0 and a non-negative cursor, `prevSlide` lands in [0, n). |
| MembershipCarousel.ModOfSmall | src/components/MembershipCarousel.tsx:32-38 | The wrap-around step: below 2n, `% n` subtracts n at most once. |
| MembershipCarousel.PrevUndoesNext | src/components/MembershipCarousel.tsx:32-38 | On an in-range cursor, back undoes forward and forward undoes back. |
| MembershipCarousel.Advance | src/components/MembershipCarousel.tsx:32-34 | The cursor after k forward presses is never negative. |
| MembershipCarousel.AdvanceCompose | src/components/MembershipCarousel.tsx:32-34 | a + b forward presses equal a presses followed by b presses. |
| MembershipCarousel.AdvanceBeforeWrap | src/components/MembershipCarousel.tsx:32-34 | Before the wrap, k forward presses move the cursor exactly k slides. |
| MembershipCarousel.FullTurnReturns | src/components/MembershipCarousel.tsx:32-34 | n forward presses on n slides return to the starting slide. |
| MembershipCarousel.Carousel.constructor | src/components/MembershipCarousel.tsx:8-9 | The list starts as the whole catalog and the cursor at 0. |
| MembershipCarousel.Carousel.Refresh | src/components/MembershipCarousel.tsx:11-30 | The effect replaces the list by the tier's list and leaves the cursor where it was. |
| MembershipCarousel.Carousel.Next | src/components/MembershipCarousel.tsx:32-34 | The cursor becomes `(prev + 1) % n`, inside the list, and the list is unchanged. |
| MembershipCarousel.Carousel.Prev | src/components/MembershipCarousel.tsx:36-38 | The cursor becomes `(prev - 1 + n) % n`, inside the list, and the list is unchanged. |
| MembershipCarousel.Carousel.GoTo | src/components/MembershipCarousel.tsx:162-165 | A dot click moves the cursor to that dot's slide. |
| Header.CountFromIsQuantitySum | src/components/Header.tsx:10 | The left fold of `reduce` equals its start value plus the plain sum of quantities. |
| Header.CartItemCount | src/components/Header.tsx:10 | The badge count (the `reduce` fold) is the total number of units over all lines, so 0 for an empty cart. |
| Header.QuantitySumConcat | src/components/Header.tsx:10 | The unit count of two concatenated carts is the sum of their counts. |
| Header.QuantitySumPermutation | src/components/Header.tsx:10 | Carts with the same lines as a multiset hold the same number of units. |
| Header.CountIgnoresOrder | src/components/Header.tsx:10 | Reordering the cart lines does not change the badge count. |
| Header.QuantitySumAtLeastLength | src/components/Header.tsx:10 | With lines of at least one unit, the unit count is at least the number of lines. |
| Header.BadgeIffNonEmpty | src/components/Header.tsx:52 | With lines of at least one unit, the badge shows iff the cart has a line. |
| Header.ZeroLineHidesBadge | src/components/Header.tsx:52 | A cart whose single line was updated to quantity 0 is not empty yet shows no badge. |
| Header.IncrementCount | src/components/Header.tsx:10 | With distinct ids, incrementing an id raises the unit count by 1 if the id is present and by 0 otherwise. |
| Header.AddRaisesCountByOne | src/components/Header.tsx:10 | With one line per id, ADD_TO_CART raises the badge count by exactly 1, whether it merges or appends. |
| Header.ShowsAdminLink | src/components/Header.tsx:37 | The Admin link shows only for a signed-in user who is not a customer. |
| Header.Corner | src/components/Header.tsx:60-81 | The Login link shows iff nobody is signed in. Otherwise the signed-in user's name is shown. |
| Header.AdminAndLoginExclusive | src/components/Header.tsx:37-81 | The Admin and Login links never show together. A signed-in customer sees neither. |
| MembershipPage.AsMembership | src/pages/Membership.tsx:14 | The plan object stored as the membership keeps the plan's id, type and discount, with `active` false. |
| MembershipPage.SelectMembership | src/pages/Membership.tsx:8-17 | Nothing is dispatched iff nobody is signed in. Otherwise SET_MEMBERSHIP carries the chosen plan. |
| MembershipPage.SelectMakesCurrent | src/pages/Membership.tsx:8-17 | A signed-in user's selection makes that plan current and its discount the membership discount. The user's id and the cart are kept. |
| MembershipPage.AtMostOneCurrentPlan | src/pages/Membership.tsx:146 | With distinct plan ids at most one card reads "Current Plan". Exactly one does iff the user's membership id is a plan id. |
| MembershipPage.PlansHaveDistinctIds | src/pages/Membership.tsx:19-74 | The page's three plans have distinct ids. |
| MembershipPage.PlansSavePositive | src/pages/Membership.tsx:117-123 | Every plan costs less than its original price and has a discount in [0, 100]. Savings show for the weekly and monthly plans only, at 10.00 and 30.00. |
| MembershipPage.PlansMatchSeed | src/pages/Membership.tsx:19-74 | Each card matches the seed plan at the same position on every field except the feature texts, which differ. |
| LoginPage.WithField | src/pages/Login.tsx:32-37 | `handleChange` gives the named field the typed value and leaves the other two fields unchanged. |
| LoginPage.ChangesCommute | src/pages/Login.tsx:32-37 | Edits to different fields commute. Of two edits to the same field only the second remains. |
| LoginPage.ChangeToSameValueIsNoop | src/pages/Login.tsx:32-37 | Writing back a field's current value changes nothing. |
| LoginPage.SubmittedUser | src/pages/Login.tsx:20-26 | The new user has a non-empty name, the typed one if any, the typed email, the customer role and no membership. |
| LoginPage.SubmittedUserShape | src/pages/Login.tsx:16-29 | The new user has id "1" and a non-empty name, the typed one if any, else "John Doe". The email is verbatim and the password is ignored. The user is a customer with no membership, no discount and no Admin link. |
| LoginPage.SubmitKeepsCart | src/pages/Login.tsx:28 | Signing in keeps the cart, drops any previous membership and makes the total equal the subtotal. |
| LoginPage.LoginForm.constructor | src/pages/Login.tsx:7-12 | The page opens in sign-in mode with an empty form. |
| LoginPage.LoginForm.HandleChange | src/pages/Login.tsx:32-37 | The form becomes the old form with only the named field replaced. The mode is kept. The name field can change only in sign-up mode, where its input is rendered. |
| LoginPage.LoginForm.ToggleMode | src/pages/Login.tsx:130 | The mode flips and the form is kept, so two toggles restore the mode. |
| LoginPage.LoginForm.Submit | src/pages/Login.tsx:16-29 | Something is dispatched iff the `required` fields are filled: email and password, and the name in sign-up mode. What is dispatched is SET_USER with the user built from the form, whose email is the typed one and, in sign-up mode, whose name is the typed one. |

## Left out

- Rendering, CSS, icons and routing are not modelled. The model keeps only the predicates that decide what shows.
- `window.location`, `navigate` and `alert` are not modelled. A redirect becomes a `None` action (`SelectMembership`) or `RedirectToLogin` (`Checkout`). A `window.location.href` assignment also loads a fresh page, which restarts the store from the seed state. That restart is not modelled either.
- The React plumbing is not modelled: `useState`, `useEffect`, `useReducer`, the context, and the `useApp` provider check.
- The payment QR URL is not modelled. It is built with `JSON.stringify`, `encodeURIComponent` and the clock, and served by an outside service.
- Clock-valued fields (`expiresAt`, `createdAt`, `deliveryDate`) are not kept. Their only source is the clock.
- No operation of the core creates an `Order`. The type is modelled, nothing builds one.
- Floating point and display rounding (`toFixed`, `toLocaleString`) are not modelled. Money is exact `real`, and the stated results hold in exact arithmetic.
- Lower-casing covers ASCII letters only. Unicode case folding is not modelled.
- The reducer's untyped `action: any` is not modelled. Payloads have the shapes the pages send: a payload of another shape has no counterpart.
- MembershipPage.AsMembership: the plan object also carries `originalPrice`, `popular` and `icon` into `user.membership`. These are dropped because no code reads them back from there.
- LoginPage.LoginForm.Submit: the browser's `type="email"` format check is not modelled, so any non-blank email passes. Only the `required` checks are.
- MembershipCarousel.NextIndex: requires at least one slide. On an empty list the source computes `NaN`, which has no integer counterpart.
- MembershipCarousel.PrevIndex: requires at least one slide, for the same reason.
- MembershipCarousel.Carousel.Next: requires at least one slide. On an empty list the source's arrow sets the cursor to `NaN`, a state the model does not have.
- MembershipCarousel.Carousel.Prev: requires at least one slide, for the same reason.
- The cart page's trash button dispatches REMOVE_FROM_CART directly (src/pages/Cart.tsx:17-19). `AppContext.RemoveDropsId` covers it.
- The carousel's own add-to-cart button dispatches ADD_TO_CART like the products page's. `ProductsPage.AddToCartIgnoresStock` covers both.
- The Home, Profile and admin dashboard pages are not modelled. They are static markup or mock data. Their one rule, the admin check, is `Header.ShowsAdminLink`. Logout dispatches SET_USER with no user (`AppContext.SetUserKeepsCart`), then reloads the page, which restarts the store from the seed state. The reload is not modelled.

=== FILE: app_context.dfy ===
/** The application store: the seed state, the closed set of actions and
    the reducer `Step` (`appReducer`), which builds every new state from the
    old one without changing it. `Store` is the one mutable cell that holds
    the current state and replaces it on each dispatch. */
module AppContext {
  import opened Types
  import opened Seqs

  /** The actions the reducer recognises, with their payloads; any other
      action type falls through to the reducer's default branch. */
  datatype Action =
    | SetUser(newUser: Option<User>)
    | AddToCart(product: Product)
    | RemoveFromCart(productId: string)
    | UpdateCartQuantity(productId: string, quantity: int)
    | ClearCart
    | SetMembership(membership: Membership)
    | Unrecognized(kind: UnknownKind)

  /** An action type string that is none of the six handled types. */
  type UnknownKind = k: string
    | k !in {"SET_USER", "ADD_TO_CART", "REMOVE_FROM_CART", "UPDATE_CART_QUANTITY", "CLEAR_CART", "SET_MEMBERSHIP"}
    witness ""

  // ---------------------------------------------------------------- seed data

  const Strawberries := Product(
    "1", "Premium Strawberries", "berries", 8.99, "lb",
    "https://images.pexels.com/photos/89778/strawberries-frisch-ripe-sweet-89778.jpeg?auto=compress&cs=tinysrgb&w=600",
    "Fresh, juicy strawberries picked at peak ripeness", true, true, Nutrition(32, 2, 58))

  const Mango := Product(
    "2", "Tropical Mango", "tropical", 3.49, "each",
    "https://images.pexels.com/photos/2294471/pexels-photo-2294471.jpeg?auto=compress&cs=tinysrgb&w=600",
    "Sweet, ripe mangoes with tropical flavor", true, true, Nutrition(60, 3, 36))

  const Blueberries := Product(
    "3", "Organic Blueberries", "berries", 6.99, "container",
    "https://images.pexels.com/photos/357573/pexels-photo-357573.jpeg?auto=compress&cs=tinysrgb&w=600",
    "Antioxidant-rich organic blueberries", true, true, Nutrition(84, 4, 14))

  const Avocados := Product(
    "4", "Fresh Avocados", "tropical", 2.99, "each",
    "https://images.pexels.com/photos/557659/pexels-photo-557659.jpeg?auto=compress&cs=tinysrgb&w=600",
    "Creamy, perfectly ripe avocados", true, false, Nutrition(160, 7, 10))

  const Oranges := Product(
    "5", "Navel Oranges", "citrus", 4.99, "bag",
    "https://images.pexels.com/photos/161559/background-bitter-breakfast-bright-161559.jpeg?auto=compress&cs=tinysrgb&w=600",
    "Sweet, juicy navel oranges", true, false, Nutrition(62, 3, 92))

  const SeedProducts: seq<Product> := [Strawberries, Mango, Blueberries, Avocados, Oranges]

  const DailyFresh := Membership(
    "1", Daily, "Daily Fresh", 9.99, 0.0,
    ["Single delivery", "Basic fruit selection", "Pay-per-use"], 1, false)

  const WeeklyBoost := Membership(
    "2", Weekly, "Weekly Boost", 24.99, 10.0,
    ["3 deliveries per week", "Expanded fruit selection", "10% discount on add-ons"], 3, false)

  const MonthlyPremium := Membership(
    "3", Monthly, "Monthly Premium", 89.99, 20.0,
    ["Daily delivery options", "Premium fruit selection", "20% discount on all orders", "Priority delivery"], 7, false)

  const SeedMemberships: seq<Membership> := [DailyFresh, WeeklyBoost, MonthlyPremium]

  /** The state the store starts from: nobody signed in, an empty cart. */
  const InitialState := AppState(None, [], SeedProducts, [], SeedMemberships)

  /** The seed catalog has distinct product ids, every product in stock,
      and exactly the first three products featured; the seed plans have
      discounts within [0, 100]. */
  lemma SeedCatalogShape()
    ensures forall i, j :: 0 <= i < j < |SeedProducts| ==> SeedProducts[i].id != SeedProducts[j].id
    ensures forall i :: 0 <= i < |SeedProducts| ==> SeedProducts[i].inStock
    ensures forall i :: 0 <= i < |SeedProducts| ==> (SeedProducts[i].featured <==> i < 3)
    ensures forall i :: 0 <= i < |SeedMemberships| ==> 0.0 <= SeedMemberships[i].discount <= 100.0
  {
  }

  // ---------------------------------------------------------- cart helpers

  /** The product ids of the cart lines, in cart order. */
  function CartIds(cart: seq<CartItem>): seq<string>
  {
    seq(|cart|, i requires 0 <= i < |cart| => cart[i].product.id)
  }

  /** The "one line per product id" invariant. */
  predicate DistinctIds(cart: seq<CartItem>)
  {
    forall i, j :: 0 <= i < j < |cart| ==> cart[i].product.id != cart[j].product.id
  }

  /** Every line holds at least one unit. */
  predicate PositiveQuantities(cart: seq<CartItem>)
  {
    forall i :: 0 <= i < |cart| ==> cart[i].quantity >= 1
  }

  /** `cart.find(item => item.product.id === id)`: the first line with that id. */
  function Find(cart: seq<CartItem>, id: string): (r: Option<CartItem>)
    ensures r.Some? <==> id in CartIds(cart)
    ensures r.Some? ==> exists i :: 0 <= i < |cart| && cart[i] == r.value && r.value.product.id == id &&
                                    forall k :: 0 <= k < i ==> cart[k].product.id != id
  {
    if cart == [] then None
    else if cart[0].product.id == id then
      assert CartIds(cart)[0] == id;
      Some(cart[0])
    else
      assert CartIds(cart) == [cart[0].product.id] + CartIds(cart[1..]);
      var r := Find(cart[1..], id);
      assert r.Some? ==> exists i :: 1 <= i < |cart| && cart[i] == r.value && r.value.product.id == id &&
                                     forall k :: 0 <= k < i ==> cart[k].product.id != id by {
        if r.Some? {
          var i :| 0 <= i < |cart| - 1 && cart[1..][i] == r.value && r.value.product.id == id &&
                   forall k :: 0 <= k < i ==> cart[1..][k].product.id != id;
          assert cart[i + 1] == r.value;
          forall k | 0 <= k < i + 1 ensures cart[k].product.id != id {
            if k > 0 { assert cart[k] == cart[1..][k - 1]; }
          }
        }
      }
      r
  }

  /** ADD_TO_CART on a present id: one more unit on every line with that id. */
  function IncrementItem(cart: seq<CartItem>, id: string): seq<CartItem>
  {
    seq(|cart|, i requires 0 <= i < |cart| =>
      if cart[i].product.id == id then cart[i].(quantity := cart[i].quantity + 1) else cart[i])
  }

  /** UPDATE_CART_QUANTITY: every line with that id gets exactly `quantity`. */
  function SetQuantity(cart: seq<CartItem>, id: string, quantity: int): seq<CartItem>
  {
    seq(|cart|, i requires 0 <= i < |cart| =>
      if cart[i].product.id == id then cart[i].(quantity := quantity) else cart[i])
  }

  /** REMOVE_FROM_CART: keep the lines whose id differs. */
  function RemoveItem(cart: seq<CartItem>, id: string): seq<CartItem>
  {
    Filter(cart, (item: CartItem) => item.product.id != id)
  }

  // ---------------------------------------------------------------- reducer

  /** `appReducer`: the new state for `s` after action `a`. */
  function Step(s: AppState, a: Action): (r: AppState)
    // No action touches the catalog, the orders or the plan list.
    ensures r.products == s.products && r.orders == s.orders && r.memberships == s.memberships
    // Only the two user actions touch the user; only cart actions touch the cart.
    ensures !a.SetUser? && !a.SetMembership? ==> r.user == s.user
    ensures a.SetUser? || a.SetMembership? || a.Unrecognized? ==> r.cart == s.cart
  {
    match a
    case SetUser(u) => s.(user := u)
    case AddToCart(p) =>
      if Find(s.cart, p.id).Some? then s.(cart := IncrementItem(s.cart, p.id))
      else s.(cart := s.cart + [CartItem(p, 1)])
    case RemoveFromCart(id) => s.(cart := RemoveItem(s.cart, id))
    case UpdateCartQuantity(id, q) => s.(cart := SetQuantity(s.cart, id, q))
    case ClearCart => s.(cart := [])
    case SetMembership(m) =>
      s.(user := if s.user.Some? then Some(s.user.value.(membership := Some(m))) else None)
    case Unrecognized(_) => s
  }

  // ------------------------------------------------------------ user actions

  /** SET_USER replaces the user wholesale, signing out included, and keeps the cart. */
  lemma SetUserKeepsCart(s: AppState, u: Option<User>)
    ensures Step(s, SetUser(u)).user == u
    ensures Step(s, SetUser(u)).cart == s.cart
  {
  }

  /** SET_MEMBERSHIP changes only the membership of a signed-in user; with
      nobody signed in the user stays absent. */
  lemma SetMembershipOnlyMembership(s: AppState, m: Membership)
    ensures s.user.None? ==> Step(s, SetMembership(m)).user.None?
    ensures s.user.Some? ==>
      var u, u' := s.user.value, Step(s, SetMembership(m)).user;
      u'.Some? && u'.value.membership == Some(m) &&
      u'.value.id == u.id && u'.value.name == u.name && u'.value.email == u.email &&
      u'.value.role == u.role && u'.value.avatar == u.avatar
  {
  }

  /** An action type the reducer does not recognise returns the state as it was. */
  lemma UnrecognizedIsNoop(s: AppState, kind: UnknownKind)
    ensures Step(s, Unrecognized(kind)) == s
  {
  }

  // ------------------------------------------------------------ ADD_TO_CART

  /** Adding a product already in the cart raises that line by exactly one
      and leaves the length, the order and every other line alone. */
  lemma AddExistingIncrements(s: AppState, p: Product)
    requires p.id in CartIds(s.cart)
    ensures var c := Step(s, AddToCart(p)).cart;
      |c| == |s.cart| && CartIds(c) == CartIds(s.cart) &&
      forall i :: 0 <= i < |c| ==>
        c[i].product == s.cart[i].product &&
        c[i].quantity == if s.cart[i].product.id == p.id then s.cart[i].quantity + 1 else s.cart[i].quantity
  {
  }

  /** Adding a product not yet in the cart appends one unit of it at the end. */
  lemma AddNewAppends(s: AppState, p: Product)
    requires p.id !in CartIds(s.cart)
    ensures Step(s, AddToCart(p)).cart == s.cart + [CartItem(p, 1)]
  {
  }

  /** Adding the same new product twice gives one line of quantity 2, not two lines. */
  lemma AddTwiceOneLine(s: AppState, p: Product)
    requires p.id !in CartIds(s.cart)
    ensures var c := Step(Step(s, AddToCart(p)), AddToCart(p)).cart;
      |c| == |s.cart| + 1 && c[..|s.cart|] == s.cart && c[|s.cart|] == CartItem(p, 2)
  {
    var c1 := Step(s, AddToCart(p)).cart;
    assert c1 == s.cart + [CartItem(p, 1)];
    assert c1[|s.cart|].product.id == p.id;
    assert CartIds(c1)[|s.cart|] == p.id;
    var c2 := Step(Step(s, AddToCart(p)), AddToCart(p)).cart;
    assert c2 == IncrementItem(c1, p.id);
    assert c2[..|s.cart|] == s.cart by {
      forall i | 0 <= i < |s.cart| ensures c2[i] == s.cart[i] {
        assert CartIds(s.cart)[i] == s.cart[i].product.id;
      }
    }
  }

  // ------------------------------------------------------- REMOVE_FROM_CART

  /** Removing an id drops every line with that id and keeps the others in
      their order. */
  lemma RemoveDropsId(s: AppState, id: string)
    ensures var c := Step(s, RemoveFromCart(id)).cart;
      id !in CartIds(c) &&
      (forall item :: item in c <==> item in s.cart && item.product.id != id) &&
      (forall item :: multiset(c)[item] == if item.product.id != id then multiset(s.cart)[item] else 0) &&
      IsSubsequence(c, s.cart)
  {
    FilterMultiset(s.cart, (item: CartItem) => item.product.id != id);
    var c := Step(s, RemoveFromCart(id)).cart;
    FilterIsSubsequence(s.cart, (item: CartItem) => item.product.id != id);
    forall k | 0 <= k < |c| ensures CartIds(c)[k] != id {
      assert c[k] in c;
    }
  }

  /** Removing an id that is not in the cart changes nothing. */
  lemma RemoveAbsentIsNoop(s: AppState, id: string)
    requires id !in CartIds(s.cart)
    ensures Step(s, RemoveFromCart(id)) == s
  {
    forall item | item in s.cart ensures item.product.id != id {
      var i :| 0 <= i < |s.cart| && s.cart[i] == item;
      assert CartIds(s.cart)[i] == item.product.id;
    }
    FilterKeepsAll(s.cart, (item: CartItem) => item.product.id != id);
  }

  /** Removing the same id twice is the same as removing it once. */
  lemma RemoveIdempotent(s: AppState, id: string)
    ensures Step(Step(s, RemoveFromCart(id)), RemoveFromCart(id)) == Step(s, RemoveFromCart(id))
  {
    FilterIdempotent(s.cart, (item: CartItem) => item.product.id != id);
  }

  // --------------------------------------------------- UPDATE_CART_QUANTITY

  /** Updating sets every matching line to exactly the given quantity (zero
      and negative values included) and leaves the other lines alone. */
  lemma UpdateSetsQuantity(s: AppState, id: string, q: int)
    ensures var c := Step(s, UpdateCartQuantity(id, q)).cart;
      |c| == |s.cart| && CartIds(c) == CartIds(s.cart) &&
      forall i :: 0 <= i < |c| ==>
        c[i].product == s.cart[i].product &&
        c[i].quantity == if s.cart[i].product.id == id then q else s.cart[i].quantity
  {
  }

  /** Updating an id that is not in the cart changes nothing. */
  lemma UpdateAbsentIsNoop(s: AppState, id: string, q: int)
    requires id !in CartIds(s.cart)
    ensures Step(s, UpdateCartQuantity(id, q)) == s
  {
    var c := Step(s, UpdateCartQuantity(id, q)).cart;
    forall i | 0 <= i < |s.cart| ensures c[i] == s.cart[i] {
      assert CartIds(s.cart)[i] == s.cart[i].product.id;
    }
  }

  /** The reducer itself does not turn a zero quantity into a removal: the
      line stays with quantity 0, so the result differs from REMOVE_FROM_CART. */
  lemma UpdateToZeroKeepsLine(s: AppState, id: string)
    requires id in CartIds(s.cart)
    ensures id in CartIds(Step(s, UpdateCartQuantity(id, 0)).cart)
    ensures Step(s, UpdateCartQuantity(id, 0)) != Step(s, RemoveFromCart(id))
  {
    var i :| 0 <= i < |s.cart| && CartIds(s.cart)[i] == id;
    assert CartIds(Step(s, UpdateCartQuantity(id, 0)).cart)[i] == id;
    RemoveDropsId(s, id);
  }

  // -------------------------------------------------------------- CLEAR_CART

  /** Clearing empties the cart, is idempotent, and changes nothing else. */
  lemma ClearCartEmpties(s: AppState)
    ensures Step(s, ClearCart) == s.(cart := [])
    ensures Step(Step(s, ClearCart), ClearCart) == Step(s, ClearCart)
  {
  }

  // --------------------------------------------------------------- invariants

  /** No action can create a second line for a product id. */
  lemma StepKeepsIdsDistinct(s: AppState, a: Action)
    requires DistinctIds(s.cart)
    ensures DistinctIds(Step(s, a).cart)
  {
    match a
    case AddToCart(p) =>
      if Find(s.cart, p.id).None? {
        var c := s.cart + [CartItem(p, 1)];
        forall i, j | 0 <= i < j < |c| ensures c[i].product.id != c[j].product.id {
          if j == |s.cart| {
            assert CartIds(s.cart)[i] == c[i].product.id;
          }
        }
      }
    case RemoveFromCart(id) =>
      var different := (x: CartItem, y: CartItem) => x.product.id != y.product.id;
      assert forall i, j :: 0 <= i < j < |s.cart| ==> different(s.cart[i], s.cart[j]);
      FilterKeepsPairwise(s.cart, (item: CartItem) => item.product.id != id, different);
    case _ =>
  }

  /** The store: the current state, replaced by `Step` on every dispatch. */
  class Store {
    var state: AppState

    /** The store keeps one cart line per product id. */
    ghost predicate Valid()
      reads this
    {
      DistinctIds(state.cart)
    }

    constructor ()
      ensures Valid() && state == InitialState
    {
      state := InitialState;
    }

    method Dispatch(a: Action)
      requires Valid()
      modifies this
      ensures Valid() && state == Step(old(state), a)
    {
      StepKeepsIdsDistinct(state, a);
      state := Step(state, a);
    }
  }
}

=== FILE: cart_page.dfy ===
/** The cart page: which action the quantity buttons dispatch, the pricing
    derivations (subtotal, membership discount, total) and checkout. Money
    is exact `real`; the page's display rounding is not part of the model. */
module CartPage {
  import opened Types
  import opened AppContext

  // ------------------------------------------------------- quantity buttons

  /** `updateQuantity`: a requested quantity of 0 removes the line, any
      other value is stored as it is. */
  function UpdateQuantityAction(productId: string, newQuantity: int): (r: Action)
    ensures r.RemoveFromCart? <==> newQuantity == 0
    ensures r.RemoveFromCart? || r.UpdateCartQuantity?
    ensures r.productId == productId
    ensures r.UpdateCartQuantity? ==> r.quantity == newQuantity
  {
    if newQuantity == 0 then RemoveFromCart(productId)
    else UpdateCartQuantity(productId, newQuantity)
  }

  /** The minus button of a line. */
  function MinusAction(item: CartItem): Action
  {
    UpdateQuantityAction(item.product.id, item.quantity - 1)
  }

  /** The plus button of a line. */
  function PlusAction(item: CartItem): Action
  {
    UpdateQuantityAction(item.product.id, item.quantity + 1)
  }

  /** At the page level a requested 0 is exactly a removal. */
  lemma ZeroRequestRemoves(s: AppState, id: string)
    ensures Step(s, UpdateQuantityAction(id, 0)) == Step(s, RemoveFromCart(id))
  {
  }

  /** The minus button on a one-unit line removes the line rather than
      storing 0. */
  lemma MinusOnSingleUnitRemoves(s: AppState, i: nat)
    requires i < |s.cart| && s.cart[i].quantity == 1
    ensures s.cart[i].product.id !in CartIds(Step(s, MinusAction(s.cart[i])).cart)
  {
    RemoveDropsId(s, s.cart[i].product.id);
  }

  /** The plus button asks for exactly one more unit of that line. */
  lemma PlusRequestsOneMore(s: AppState, i: nat)
    requires i < |s.cart| && s.cart[i].quantity >= 0
    ensures var c := Step(s, PlusAction(s.cart[i])).cart;
      |c| == |s.cart| && c[i] == s.cart[i].(quantity := s.cart[i].quantity + 1)
  {
  }

  /** Starting from lines of at least one unit, the buttons of this page
      never leave a line at zero or below: the minus button removes a
      one-unit line instead. */
  lemma ButtonsKeepQuantitiesPositive(s: AppState, i: nat, plus: bool)
    requires PositiveQuantities(s.cart) && i < |s.cart|
    ensures var a := if plus then PlusAction(s.cart[i]) else MinusAction(s.cart[i]);
      PositiveQuantities(Step(s, a).cart)
  {
    var item := s.cart[i];
    var a := if plus then PlusAction(item) else MinusAction(item);
    var c := Step(s, a).cart;
    if a.RemoveFromCart? {
      forall k | 0 <= k < |c| ensures c[k].quantity >= 1 {
        assert c[k] in s.cart;
      }
    }
  }

  // ----------------------------------------------------------------- pricing

  /** `getMembershipDiscount` (identical on the products page): the signed-in
      user's membership discount percentage, 0 without one. */
  function MembershipDiscount(user: Option<User>): (r: real)
    ensures user.None? || user.value.membership.None? ==> r == 0.0
    ensures user.Some? && user.value.membership.Some? ==> r == user.value.membership.value.discount
  {
    if user.Some? && user.value.membership.Some? then user.value.membership.value.discount else 0.0
  }

  function LineTotal(item: CartItem): real
  {
    item.product.price * item.quantity as real
  }

  /** The `reduce` step by step: `acc` plus the line totals of `items`, added
      left to right. */
  function SumFrom(acc: real, items: seq<CartItem>): real
    decreases |items|
  {
    if items == [] then acc else SumFrom(acc + LineTotal(items[0]), items[1..])
  }

  /** `calculateSubtotal`. */
  function Subtotal(cart: seq<CartItem>): (r: real)
    ensures r == LineSum(cart)
  {
    SumFromIsLineSum(0.0, cart);
    SumFrom(0.0, cart)
  }

  /** The sum of the line totals, as a reference for the fold. */
  function LineSum(items: seq<CartItem>): real
  {
    if items == [] then 0.0 else LineTotal(items[0]) + LineSum(items[1..])
  }

  lemma {:induction false} SumFromIsLineSum(acc: real, items: seq<CartItem>)
    ensures SumFrom(acc, items) == acc + LineSum(items)
    decreases |items|
  {
    if items != [] {
      SumFromIsLineSum(acc + LineTotal(items[0]), items[1..]);
    }
  }

  lemma {:induction false} LineSumConcat(a: seq<CartItem>, b: seq<CartItem>)
    ensures LineSum(a + b) == LineSum(a) + LineSum(b)
  {
    if a == [] {
      assert a + b == b;
    } else {
      LineSumConcat(a[1..], b);
      assert (a + b)[1..] == a[1..] + b;
    }
  }

  lemma {:induction false} LineSumPermutation(a: seq<CartItem>, b: seq<CartItem>)
    requires multiset(a) == multiset(b)
    ensures LineSum(a) == LineSum(b)
    decreases |a|
  {
    if a == [] {
      assert |b| == |multiset(b)| == 0;
    } else {
      var x := a[0];
      assert x in multiset(b);
      var j :| 0 <= j < |b| && b[j] == x;
      var rest := b[..j] + b[j + 1..];
      assert b == b[..j] + ([x] + b[j + 1..]);
      LineSumConcat(b[..j], [x] + b[j + 1..]);
      LineSumConcat(b[..j], b[j + 1..]);
      assert ([x] + b[j + 1..])[1..] == b[j + 1..];
      assert a == [x] + a[1..];
      assert multiset(a) == multiset{x} + multiset(a[1..]);
      assert multiset(b) == multiset(b[..j]) + multiset{x} + multiset(b[j + 1..]);
      assert multiset(rest) == multiset(b[..j]) + multiset(b[j + 1..]);
      assert multiset(a[1..]) == multiset(a) - multiset{x};
      assert multiset(rest) == multiset(b) - multiset{x};
      LineSumPermutation(a[1..], rest);
    }
  }

  /** The subtotal of an empty cart is 0, and reordering the lines does not
      change it. */
  lemma SubtotalIgnoresOrder(a: seq<CartItem>, b: seq<CartItem>)
    requires multiset(a) == multiset(b)
    ensures Subtotal([]) == 0.0
    ensures Subtotal(a) == Subtotal(b)
  {
    LineSumPermutation(a, b);
  }

  /** With non-negative prices and quantities the subtotal is non-negative. */
  lemma SubtotalNonNegative(cart: seq<CartItem>)
    requires forall i :: 0 <= i < |cart| ==> cart[i].product.price >= 0.0 && cart[i].quantity >= 0
    ensures Subtotal(cart) >= 0.0
  {
    LineSumNonNegative(cart);
  }

  lemma {:induction false} LineSumNonNegative(items: seq<CartItem>)
    requires forall i :: 0 <= i < |items| ==> items[i].product.price >= 0.0 && items[i].quantity >= 0
    ensures LineSum(items) >= 0.0
  {
    if items != [] {
      var p, q := items[0].product.price, items[0].quantity as real;
      assert p * q >= 0.0;
      LineSumNonNegative(items[1..]);
    }
  }

  /** Scaling a non-negative amount by a fraction in [0, 1] stays between 0
      and the amount. */
  lemma ScaledWithin(x: real, f: real)
    ensures x >= 0.0 && 0.0 <= f <= 1.0 ==> 0.0 <= x * f <= x
  {
    if x >= 0.0 && 0.0 <= f <= 1.0 {
      assert x * (1.0 - f) >= 0.0;
      assert x - x * f == x * (1.0 - f);
    }
  }

  /** `calculateDiscount`: the subtotal times the discount percentage / 100. */
  function Discount(cart: seq<CartItem>, user: Option<User>): (r: real)
    ensures MembershipDiscount(user) == 0.0 ==> r == 0.0
    ensures Subtotal(cart) >= 0.0 && 0.0 <= MembershipDiscount(user) <= 100.0 ==>
      0.0 <= r <= Subtotal(cart)
  {
    var st, f := Subtotal(cart), MembershipDiscount(user) / 100.0;
    ScaledWithin(st, f);
    st * f
  }

  /** `calculateTotal`. */
  function Total(cart: seq<CartItem>, user: Option<User>): (r: real)
    ensures r == Subtotal(cart) * (1.0 - MembershipDiscount(user) / 100.0)
    ensures MembershipDiscount(user) == 0.0 ==> r == Subtotal(cart)
    ensures Subtotal(cart) >= 0.0 && 0.0 <= MembershipDiscount(user) <= 100.0 ==>
      0.0 <= r <= Subtotal(cart)
  {
    Subtotal(cart) - Discount(cart, user)
  }

  /** Without a signed-in member nothing is taken off. */
  lemma NoMembershipNoDiscount(cart: seq<CartItem>, user: Option<User>)
    requires user.None? || user.value.membership.None?
    ensures MembershipDiscount(user) == 0.0
    ensures Discount(cart, user) == 0.0 && Total(cart, user) == Subtotal(cart)
  {
  }

  /** The total is the subtotal scaled by the remaining percentage, and for a
      discount within [0, 100] it lies between 0 and the subtotal. */
  lemma TotalWithinSubtotal(cart: seq<CartItem>, user: Option<User>)
    requires forall i :: 0 <= i < |cart| ==> cart[i].product.price >= 0.0 && cart[i].quantity >= 0
    requires 0.0 <= MembershipDiscount(user) <= 100.0
    ensures Total(cart, user) == Subtotal(cart) * (1.0 - MembershipDiscount(user) / 100.0)
    ensures 0.0 <= Total(cart, user) <= Subtotal(cart)
  {
    SubtotalNonNegative(cart);
    var st, f := Subtotal(cart), MembershipDiscount(user) / 100.0;
    assert 0.0 <= f <= 1.0;
    assert Discount(cart, user) == st * f;
    assert st * (1.0 - f) >= 0.0;
    assert st * f >= 0.0;
  }

  /** Two pounds of strawberries and one mango for a member with a 10%
      discount (the Weekly Boost plan): 21.47 before the discount of 2.147,
      19.323 to pay. */
  lemma WeeklyBoostExample(u: User)
    requires u.membership.Some? && u.membership.value.discount == 10.0
    ensures var cart := [CartItem(Strawberries, 2), CartItem(Mango, 1)];
      Subtotal(cart) == 21.47 && Discount(cart, Some(u)) == 2.147 && Total(cart, Some(u)) == 19.323
  {
    var cart := [CartItem(Strawberries, 2), CartItem(Mango, 1)];
    assert cart[1..][1..] == [];
    assert SumFrom(17.98, cart[1..]) == SumFrom(21.47, []) == 21.47;
    assert Subtotal(cart) == SumFrom(17.98, cart[1..]);
  }

  // ---------------------------------------------------------------- checkout

  datatype CheckoutResult = RedirectToLogin | ShowPayment

  /** `handleCheckout`: the payment dialog opens exactly for a signed-in
      user; without one the page sends the visitor to the login page. */
  function Checkout(user: Option<User>): (r: CheckoutResult)
    ensures r == ShowPayment <==> user.Some?
    ensures r == RedirectToLogin <==> user.None?
  {
    if user.None? then RedirectToLogin else ShowPayment
  }

  /** The action that "Confirm Payment" dispatches. */
  const ConfirmPaymentAction: Action := ClearCart

  /** Confirming the payment empties the cart, so the subtotal drops to 0,
      and keeps the user. */
  lemma ConfirmPaymentEmptiesCart(s: AppState)
    ensures Step(s, ConfirmPaymentAction).cart == []
    ensures Subtotal(Step(s, ConfirmPaymentAction).cart) == 0.0
    ensures Step(s, ConfirmPaymentAction).user == s.user
  {
  }
}

=== FILE: header.dfy ===
/** The page header: the cart badge with the number of units in the cart, the
    Admin link and the Login link or the signed-in user's name. */
module Header {
  import opened Types
  import opened AppContext

  // -------------------------------------------------------------- cart badge

  /** The `reduce` step by step: `acc` plus the quantities of `items`, added
      left to right. */
  function CountFrom(acc: int, items: seq<CartItem>): int
    decreases |items|
  {
    if items == [] then acc else CountFrom(acc + items[0].quantity, items[1..])
  }

  /** `cartItemCount`: the number of units over all lines, 0 for an empty
      cart. */
  function CartItemCount(cart: seq<CartItem>): (r: int)
    ensures r == QuantitySum(cart)
  {
    CountFromIsQuantitySum(0, cart);
    CountFrom(0, cart)
  }

  /** The sum of the line quantities, as a reference for the fold. */
  function QuantitySum(items: seq<CartItem>): int
  {
    if items == [] then 0 else items[0].quantity + QuantitySum(items[1..])
  }

  lemma {:induction false} CountFromIsQuantitySum(acc: int, items: seq<CartItem>)
    ensures CountFrom(acc, items) == acc + QuantitySum(items)
    decreases |items|
  {
    if items != [] {
      CountFromIsQuantitySum(acc + items[0].quantity, items[1..]);
    }
  }

  lemma {:induction false} QuantitySumConcat(a: seq<CartItem>, b: seq<CartItem>)
    ensures QuantitySum(a + b) == QuantitySum(a) + QuantitySum(b)
  {
    if a == [] {
      assert a + b == b;
    } else {
      QuantitySumConcat(a[1..], b);
      assert (a + b)[1..] == a[1..] + b;
    }
  }

  lemma {:induction false} QuantitySumPermutation(a: seq<CartItem>, b: seq<CartItem>)
    requires multiset(a) == multiset(b)
    ensures QuantitySum(a) == QuantitySum(b)
    decreases |a|
  {
    if a == [] {
      assert |b| == |multiset(b)| == 0;
    } else {
      var x := a[0];
      assert x in multiset(b);
      var j :| 0 <= j < |b| && b[j] == x;
      var rest := b[..j] + b[j + 1..];
      assert b == b[..j] + ([x] + b[j + 1..]);
      QuantitySumConcat(b[..j], [x] + b[j + 1..]);
      QuantitySumConcat(b[..j], b[j + 1..]);
      assert ([x] + b[j + 1..])[1..] == b[j + 1..];
      assert a == [x] + a[1..];
      assert multiset(a) == multiset{x} + multiset(a[1..]);
      assert multiset(b) == multiset(b[..j]) + multiset{x} + multiset(b[j + 1..]);
      assert multiset(rest) == multiset(b[..j]) + multiset(b[j + 1..]);
      assert multiset(a[1..]) == multiset(a) - multiset{x};
      assert multiset(rest) == multiset(b) - multiset{x};
      QuantitySumPermutation(a[1..], rest);
    }
  }

  /** Reordering the cart lines does not change the count. */
  lemma CountIgnoresOrder(a: seq<CartItem>, b: seq<CartItem>)
    requires multiset(a) == multiset(b)
    ensures CartItemCount(a) == CartItemCount(b)
  {
    QuantitySumPermutation(a, b);
  }

  /** The badge is rendered only for a positive count. */
  predicate ShowsBadge(cart: seq<CartItem>)
  {
    CartItemCount(cart) > 0
  }

  lemma {:induction false} QuantitySumAtLeastLength(items: seq<CartItem>)
    requires PositiveQuantities(items)
    ensures QuantitySum(items) >= |items|
  {
    if items != [] {
      QuantitySumAtLeastLength(items[1..]);
    }
  }

  /** When every line holds at least one unit the count is at least the
      number of lines, so the badge shows exactly when the cart has a line. */
  lemma BadgeIffNonEmpty(cart: seq<CartItem>)
    requires PositiveQuantities(cart)
    ensures CartItemCount(cart) >= |cart|
    ensures ShowsBadge(cart) <==> cart != []
  {
    QuantitySumAtLeastLength(cart);
  }

  /** The reducer accepts a quantity of 0, and a cart holding only such a
      line has no badge although it is not empty. */
  lemma ZeroLineHidesBadge(s: AppState, p: Product)
    requires s.cart == []
    ensures var c := Step(Step(s, AddToCart(p)), UpdateCartQuantity(p.id, 0)).cart;
      c == [CartItem(p, 0)] && !ShowsBadge(c)
  {
    var c1 := Step(s, AddToCart(p)).cart;
    assert c1 == [CartItem(p, 1)];
    assert CartIds(c1)[0] == p.id;
    var c := Step(Step(s, AddToCart(p)), UpdateCartQuantity(p.id, 0)).cart;
    assert c == [CartItem(p, 0)];
    assert c[1..] == [];
    assert CartItemCount(c) == CountFrom(0, c[1..]) == 0;
  }

  lemma {:induction false} IncrementCount(cart: seq<CartItem>, id: string)
    requires DistinctIds(cart)
    ensures QuantitySum(IncrementItem(cart, id)) == QuantitySum(cart) + if id in CartIds(cart) then 1 else 0
  {
    if cart != [] {
      var rest := cart[1..];
      assert IncrementItem(cart, id)[1..] == IncrementItem(rest, id);
      assert CartIds(cart) == [cart[0].product.id] + CartIds(rest);
      if cart[0].product.id == id {
        forall k | 0 <= k < |rest| ensures CartIds(rest)[k] != id {
          assert cart[k + 1] == rest[k];
        }
      }
      IncrementCount(rest, id);
    }
  }

  /** With one line per product id, the add-to-cart action raises the count
      by exactly one, whether it merges into a line or appends one. */
  lemma AddRaisesCountByOne(s: AppState, p: Product)
    requires DistinctIds(s.cart)
    ensures CartItemCount(Step(s, AddToCart(p)).cart) == CartItemCount(s.cart) + 1
  {
    var c := Step(s, AddToCart(p)).cart;
    if p.id in CartIds(s.cart) {
      IncrementCount(s.cart, p.id);
    } else {
      QuantitySumConcat(s.cart, [CartItem(p, 1)]);
    }
  }

  // ------------------------------------------------------------------- links

  /** The Admin link: a signed-in user whose role is admin. */
  predicate ShowsAdminLink(user: Option<User>)
    ensures ShowsAdminLink(user) ==> user.Some? && user.value.role != Customer
  {
    user.Some? && user.value.role == Admin
  }

  /** The Login link: nobody is signed in. */
  predicate ShowsLoginLink(user: Option<User>)
  {
    user.None?
  }

  /** What the right-hand corner shows: the Login link, or the signed-in
      user's name linking to the profile. */
  datatype UserCorner = LoginLink | UserName(name: string)

  function Corner(user: Option<User>): (r: UserCorner)
    ensures r.LoginLink? <==> ShowsLoginLink(user)
    ensures r.UserName? ==> user.Some? && r.name == user.value.name
  {
    if user.Some? then UserName(user.value.name) else LoginLink
  }

  /** The Admin link and the Login link are never shown together; signing in
      as a customer shows neither. */
  lemma AdminAndLoginExclusive(user: Option<User>)
    ensures !(ShowsAdminLink(user) && ShowsLoginLink(user))
    ensures user.Some? && user.value.role == Customer ==> !ShowsAdminLink(user) && !ShowsLoginLink(user)
  {
  }
}

=== FILE: login_page.dfy ===
/** The login page: the form's field updates, the sign-in / sign-up toggle
    and the simulated sign-in that builds a customer from the form and
    dispatches SET_USER. No credential is checked. */
module LoginPage {
  import opened Types
  import opened AppContext
  import opened CartPage
  import opened Header

  datatype FormData = FormData(name: string, email: string, password: string)

  /** The `name` attributes of the page's three inputs. */
  datatype Field = NameField | EmailField | PasswordField

  function FieldValue(form: FormData, field: Field): string
  {
    match field
    case NameField => form.name
    case EmailField => form.email
    case PasswordField => form.password
  }

  /** The spread-and-override in `handleChange`: the named field takes the
      input's value and the other two keep theirs. */
  function WithField(form: FormData, field: Field, value: string): (r: FormData)
    ensures FieldValue(r, field) == value
    ensures forall f :: f != field ==> FieldValue(r, f) == FieldValue(form, f)
  {
    match field
    case NameField => form.(name := value)
    case EmailField => form.(email := value)
    case PasswordField => form.(password := value)
  }

  /** Typing into one field and then another gives the same form in either
      order; typing into the same field twice keeps only the second value. */
  lemma ChangesCommute(form: FormData, f: Field, v: string, g: Field, w: string)
    ensures f != g ==> WithField(WithField(form, f, v), g, w) == WithField(WithField(form, g, w), f, v)
    ensures WithField(WithField(form, f, v), f, w) == WithField(form, f, w)
  {
  }

  /** Writing back the value a field already holds changes nothing. */
  lemma ChangeToSameValueIsNoop(form: FormData, f: Field)
    ensures WithField(form, f, FieldValue(form, f)) == form
  {
  }

  // ------------------------------------------------------------------ submit

  /** `handleSubmit`'s user: id "1", the form name or "John Doe" when it is
      empty, the email as typed, a customer without membership or avatar.
      The password is ignored. */
  function SubmittedUser(form: FormData): (u: User)
    ensures u.name != "" && (form.name != "" ==> u.name == form.name)
    ensures u.email == form.email && u.role == Customer && u.membership.None?
  {
    User("1", if form.name == "" then "John Doe" else form.name, form.email, Customer, None, None)
  }

  /** The `required` attributes: the email and the password always, the
      name only in sign-up mode, where its input is rendered. */
  predicate PassesRequired(isLogin: bool, form: FormData)
  {
    form.email != "" && form.password != "" && (isLogin || form.name != "")
  }

  /** The action the submit handler dispatches. */
  function SubmitAction(form: FormData): Action
  {
    SetUser(Some(SubmittedUser(form)))
  }

  /** The signed-in user always has a name, the typed one when there is one;
      the email is kept verbatim; the password has no effect; and the user
      is a plain customer with no discount and no Admin link. */
  lemma SubmittedUserShape(form: FormData, password: string)
    ensures var u := SubmittedUser(form);
      u.id == "1" && u.name != "" &&
      (form.name != "" ==> u.name == form.name) &&
      u.email == form.email &&
      u.role == Customer && u.membership.None? && u.avatar.None?
    ensures SubmittedUser(form.(password := password)) == SubmittedUser(form)
    ensures MembershipDiscount(Some(SubmittedUser(form))) == 0.0
    ensures !ShowsAdminLink(Some(SubmittedUser(form))) && !ShowsLoginLink(Some(SubmittedUser(form)))
  {
  }

  /** Signing in keeps the cart, so its total is then the undiscounted
      subtotal; a member who signs in again loses the membership. */
  lemma SubmitKeepsCart(s: AppState, form: FormData)
    ensures var s' := Step(s, SubmitAction(form));
      s'.cart == s.cart && s'.user == Some(SubmittedUser(form)) &&
      Total(s'.cart, s'.user) == Subtotal(s.cart) &&
      s'.user.value.membership.None?
  {
    var s' := Step(s, SubmitAction(form));
    NoMembershipNoDiscount(s'.cart, s'.user);
  }

  // -------------------------------------------------------------- the form

  /** The page's component state: sign-in or sign-up mode and the form. */
  class LoginForm {
    var isLogin: bool
    var form: FormData

    /** The page opens in sign-in mode with an empty form. */
    constructor ()
      ensures isLogin && form == FormData("", "", "")
    {
      isLogin := true;
      form := FormData("", "", "");
    }

    /** `handleChange` for the input named `field`. The name input is
        rendered only in sign-up mode, so only then can it be typed into. */
    method HandleChange(field: Field, value: string)
      requires field == NameField ==> !isLogin
      modifies this
      ensures form == WithField(old(form), field, value) && isLogin == old(isLogin)
    {
      form := WithField(form, field, value);
    }

    /** The "Sign up" / "Sign in" button flips the mode and keeps the form,
        so two presses restore the mode. */
    method ToggleMode()
      modifies this
      ensures isLogin == !old(isLogin) && form == old(form)
    {
      isLogin := !isLogin;
    }

    /** Submitting: the browser's `required` checks block the submit event
        while the email or the password is blank, or, in sign-up mode, the
        name; otherwise the same SET_USER action is dispatched in either mode,
        built from the form alone. */
    method Submit() returns (a: Option<Action>)
      ensures a.Some? <==> PassesRequired(isLogin, form)
      ensures a.Some? ==> a.value == SubmitAction(form)
      ensures a.Some? ==> (a.value.SetUser? && a.value.newUser.Some? &&
        a.value.newUser.value.email == form.email)
      ensures a.Some? && !isLogin ==> a.value.newUser.value.name == form.name
    {
      if PassesRequired(isLogin, form) {
        a := Some(SubmitAction(form));
      } else {
        a := None;
      }
    }
  }
}

=== FILE: membership_carousel.dfy ===
/** The membership carousel: which catalog products a visitor sees for their
    membership tier, and the slide cursor moved by the arrow buttons and the
    dots. */
module MembershipCarousel {
  import opened Types
  import opened Seqs
  import opened AppContext

  // ----------------------------------------------------------- tier policy

  function FeaturedOnly(products: seq<Product>): seq<Product>
  {
    Filter(products, (p: Product) => p.featured)
  }

  function FeaturedOrBerries(products: seq<Product>): seq<Product>
  {
    Filter(products, (p: Product) => p.featured || p.category == "berries")
  }

  /** `slice(0, 3)`. */
  function FirstThree(s: seq<Product>): seq<Product>
  {
    s[..if |s| < 3 then |s| else 3]
  }

  /** The products the carousel shows: everything for monthly members,
      featured or berries for weekly members, featured for any other
      membership, and at most three featured products for non-members.
      Stock is not consulted. */
  function VisibleProducts(products: seq<Product>, membership: Option<Membership>): (r: seq<Product>)
    ensures forall p :: p in r ==> p in products
    ensures membership.None? ==> |r| <= 3 && forall p :: p in r ==> p.featured
  {
    match membership
    case None => FirstThree(FeaturedOnly(products))
    case Some(m) =>
      if m.kind == Monthly then products
      else if m.kind == Weekly then FeaturedOrBerries(products)
      else FeaturedOnly(products)
  }

  /** Every tier shows catalog products in catalog order. */
  lemma VisibleInCatalogOrder(products: seq<Product>, membership: Option<Membership>)
    ensures IsSubsequence(VisibleProducts(products, membership), products)
    ensures forall p :: p in VisibleProducts(products, membership) ==> p in products
  {
    var r := VisibleProducts(products, membership);
    match membership
    case None =>
      var f := FeaturedOnly(products);
      FilterIsSubsequence(products, (p: Product) => p.featured);
      PrefixIsSubsequence(f, |FirstThree(f)|);
      SubsequenceTransitive(r, f, products);
    case Some(m) =>
      if m.kind == Monthly {
        SubsequenceReflexive(products);
      } else if m.kind == Weekly {
        FilterIsSubsequence(products, (p: Product) => p.featured || p.category == "berries");
      } else {
        FilterIsSubsequence(products, (p: Product) => p.featured);
      }
    SubsequenceMembers(r, products);
  }

  /** A monthly member sees the whole catalog. */
  lemma MonthlySeesAll(products: seq<Product>, m: Membership)
    requires m.kind == Monthly
    ensures VisibleProducts(products, Some(m)) == products
  {
  }

  /** A weekly member sees exactly the featured products and the berries. */
  lemma WeeklySeesFeaturedOrBerries(products: seq<Product>, m: Membership)
    requires m.kind == Weekly
    ensures forall p :: p in VisibleProducts(products, Some(m)) <==>
      p in products && (p.featured || p.category == "berries")
    ensures forall p :: (multiset(VisibleProducts(products, Some(m)))[p] ==
        if p.featured || p.category == "berries" then multiset(products)[p] else 0)
  {
    FilterMultiset(products, (p: Product) => p.featured || p.category == "berries");
  }

  /** A daily member sees exactly the featured products. */
  lemma DailySeesFeatured(products: seq<Product>, m: Membership)
    requires m.kind == Daily
    ensures forall p :: p in VisibleProducts(products, Some(m)) <==> p in products && p.featured
    ensures forall p :: (multiset(VisibleProducts(products, Some(m)))[p] ==
        if p.featured then multiset(products)[p] else 0)
  {
    FilterMultiset(products, (p: Product) => p.featured);
  }

  /** A visitor without membership sees the first three featured products,
      or all of them when there are fewer. */
  lemma NonMemberSeesFirstThreeFeatured(products: seq<Product>)
    ensures var r, f := VisibleProducts(products, None), FeaturedOnly(products);
      |r| <= 3 && (|r| == 3 || |r| == |f|) &&
      r == f[..|r|] &&
      forall p :: p in r ==> p in products && p.featured
  {
    var r, f := VisibleProducts(products, None), FeaturedOnly(products);
    forall p | p in r ensures p in f {
      var i :| 0 <= i < |r| && r[i] == p;
      assert f[i] == p;
    }
  }

  /** The tiers nest: what a non-member sees a daily member sees, what a
      daily member sees a weekly member sees, and a monthly member sees all. */
  lemma TiersNest(products: seq<Product>, daily: Membership, weekly: Membership, monthly: Membership)
    requires daily.kind == Daily && weekly.kind == Weekly && monthly.kind == Monthly
    ensures IsSubsequence(VisibleProducts(products, None), VisibleProducts(products, Some(daily)))
    ensures IsSubsequence(VisibleProducts(products, Some(daily)), VisibleProducts(products, Some(weekly)))
    ensures IsSubsequence(VisibleProducts(products, Some(weekly)), VisibleProducts(products, Some(monthly)))
  {
    var f := FeaturedOnly(products);
    PrefixIsSubsequence(f, |FirstThree(f)|);
    FilterMonotone(products, (p: Product) => p.featured, (p: Product) => p.featured || p.category == "berries");
    FilterIsSubsequence(products, (p: Product) => p.featured || p.category == "berries");
  }

  /** On the seed catalog a non-member sees strawberries, mango and
      blueberries, the three featured products. */
  lemma SeedNonMemberSelection()
    ensures VisibleProducts(SeedProducts, None) == [Strawberries, Mango, Blueberries]
  {
    var ps := SeedProducts;
    assert ps[5..] == [] && ps[4..][1..] == ps[5..] && ps[3..][1..] == ps[4..];
    assert ps[2..][1..] == ps[3..] && ps[1..][1..] == ps[2..];
    assert FeaturedOnly(ps[4..]) == [];
    assert FeaturedOnly(ps[3..]) == [];
    assert FeaturedOnly(ps[2..]) == [Blueberries];
    assert FeaturedOnly(ps[1..]) == [Mango, Blueberries];
    assert FeaturedOnly(ps) == [Strawberries, Mango, Blueberries];
  }

  // ----------------------------------------------------------------- cursor

  /** `nextSlide`: one slide on, wrapping to the first. Operands are never
      negative here, so JavaScript's `%` agrees with Dafny's. */
  function NextIndex(prev: int, n: int): (r: int)
    requires prev >= 0 && n > 0
    ensures 0 <= r < n
  {
    (prev + 1) % n
  }

  /** `prevSlide`: one slide back, wrapping to the last. */
  function PrevIndex(prev: int, n: int): (r: int)
    requires prev >= 0 && n > 0
    ensures 0 <= r < n
  {
    (prev - 1 + n) % n
  }

  lemma ModOfSmall(x: int, n: int)
    requires n > 0 && 0 <= x < 2 * n
    ensures x % n == if x < n then x else x - n
  {
    if x >= n {
      assert x == 1 * n + (x - n);
    }
  }

  /** On an index in range, the back button undoes the forward button and
      the forward button undoes the back button. */
  lemma PrevUndoesNext(i: int, n: int)
    requires 0 <= i < n
    ensures PrevIndex(NextIndex(i, n), n) == i
    ensures NextIndex(PrevIndex(i, n), n) == i
  {
    ModOfSmall(i + 1, n);
    ModOfSmall(NextIndex(i, n) - 1 + n, n);
    ModOfSmall(i - 1 + n, n);
    ModOfSmall(PrevIndex(i, n) + 1, n);
  }

  /** The cursor after `k` presses of the forward button. */
  function Advance(i: int, k: nat, n: int): (r: int)
    requires i >= 0 && n > 0
    ensures 0 <= r
  {
    if k == 0 then i else NextIndex(Advance(i, k - 1, n), n)
  }

  lemma {:induction false} AdvanceCompose(i: int, a: nat, b: nat, n: int)
    requires i >= 0 && n > 0
    ensures Advance(i, a + b, n) == Advance(Advance(i, a, n), b, n)
  {
    if b > 0 {
      AdvanceCompose(i, a, b - 1, n);
    }
  }

  /** Before the wrap-around, `k` presses move the cursor `k` slides on. */
  lemma {:induction false} AdvanceBeforeWrap(i: int, k: nat, n: int)
    requires 0 <= i && i + k < n
    ensures Advance(i, k, n) == i + k
  {
    if k > 0 {
      AdvanceBeforeWrap(i, k - 1, n);
      ModOfSmall(i + k, n);
    }
  }

  /** `n` presses of the forward button on `n` slides return to the start. */
  lemma FullTurnReturns(i: int, n: int)
    requires 0 <= i < n
    ensures Advance(i, n as nat, n) == i
  {
    AdvanceBeforeWrap(i, n - i - 1, n);
    ModOfSmall(n, n);
    assert Advance(i, (n - i) as nat, n) == 0;
    AdvanceBeforeWrap(0, i as nat, n);
    AdvanceCompose(i, (n - i) as nat, i as nat, n);
  }

  /** The carousel's component state: the visible list and the current slide. */
  class Carousel {
    var slides: seq<Product>
    var current: int

    /** The cursor is never negative. It may point past the end after the
        list shrinks, since the list update does not reset it. */
    ghost predicate Valid()
      reads this
    {
      current >= 0
    }

    /** The list starts as the whole catalog and the cursor at 0. */
    constructor (catalog: seq<Product>)
      ensures Valid() && slides == catalog && current == 0
    {
      slides := catalog;
      current := 0;
    }

    /** The effect that recomputes the list when the membership or the
        catalog changes. */
    method Refresh(catalog: seq<Product>, membership: Option<Membership>)
      requires Valid()
      modifies this
      ensures Valid() && slides == VisibleProducts(catalog, membership) && current == old(current)
    {
      slides := VisibleProducts(catalog, membership);
    }

    method Next()
      requires Valid() && |slides| > 0
      modifies this
      ensures Valid() && slides == old(slides)
      ensures current == NextIndex(old(current), |slides|) && current < |slides|
    {
      current := NextIndex(current, |slides|);
    }

    method Prev()
      requires Valid() && |slides| > 0
      modifies this
      ensures Valid() && slides == old(slides)
      ensures current == PrevIndex(old(current), |slides|) && current < |slides|
    {
      current := PrevIndex(current, |slides|);
    }

    /** A dot click; there is one dot per visible slide. */
    method GoTo(index: nat)
      requires Valid() && index < |slides|
      modifies this
      ensures Valid() && slides == old(slides) && current == index
    {
      current := index;
    }
  }
}

=== FILE: membership_page.dfy ===
/** The membership page: the three plan cards, the savings line, the
    "Current Plan" label and the select button that either sends the visitor
    to sign in or dispatches SET_MEMBERSHIP with the chosen plan. */
module MembershipPage {
  import opened Types
  import opened AppContext
  import opened CartPage

  /** A plan card. It carries the card-only fields `originalPrice` and
      `popular`; the icon is markup and is not kept. */
  datatype Plan = Plan(
    id: string,
    kind: MembershipType,
    name: string,
    price: real,
    originalPrice: real,
    discount: real,
    popular: bool,
    features: seq<string>,
    deliveriesPerWeek: int)

  const DailyPlan := Plan("1", Daily, "Daily Fresh", 9.99, 12.99, 0.0, false,
    ["Single delivery per purchase", "Basic fruit selection", "Standard delivery time", "Email support"], 1)

  const WeeklyPlan := Plan("2", Weekly, "Weekly Boost", 24.99, 34.99, 10.0, true,
    ["3 deliveries per week", "Expanded fruit selection", "10% discount on all orders",
     "Priority delivery", "Phone & email support"], 3)

  const MonthlyPlan := Plan("3", Monthly, "Monthly Premium", 89.99, 119.99, 20.0, false,
    ["Daily delivery options", "Premium fruit selection", "20% discount on all orders",
     "Express delivery", "Dedicated account manager", "Exclusive seasonal fruits"], 7)

  /** `membershipPlans`, in card order. */
  const Plans: seq<Plan> := [DailyPlan, WeeklyPlan, MonthlyPlan]

  /** The plan object as it lands in `user.membership`: the fields a
      membership has, with `active` absent and hence false. */
  function AsMembership(plan: Plan): (m: Membership)
    ensures m.id == plan.id && m.kind == plan.kind && m.discount == plan.discount && !m.active
  {
    Membership(plan.id, plan.kind, plan.name, plan.price, plan.discount,
      plan.features, plan.deliveriesPerWeek, false)
  }

  // --------------------------------------------------------------- selection

  /** `handleSelectMembership`: no action without a signed-in user (the page
      goes to the login page instead), otherwise SET_MEMBERSHIP with the plan. */
  function SelectMembership(user: Option<User>, plan: Plan): (r: Option<Action>)
    ensures r.None? <==> user.None?
    ensures r.Some? ==> r.value == SetMembership(AsMembership(plan))
  {
    if user.None? then None else Some(SetMembership(AsMembership(plan)))
  }

  /** Selecting a plan as a signed-in user makes it the current plan, puts
      its discount on every later price, and keeps the user's identity and
      the cart. */
  lemma SelectMakesCurrent(s: AppState, plan: Plan)
    requires s.user.Some?
    ensures var s' := Step(s, SelectMembership(s.user, plan).value);
      s'.user.Some? && s'.user.value.id == s.user.value.id &&
      IsCurrentPlan(s'.user, plan) &&
      MembershipDiscount(s'.user) == plan.discount &&
      s'.cart == s.cart
  {
  }

  // ------------------------------------------------------------ plan labels

  /** The button reads "Current Plan" when the user's membership id is the
      plan's id. */
  predicate IsCurrentPlan(user: Option<User>, plan: Plan)
  {
    user.Some? && user.value.membership.Some? && user.value.membership.value.id == plan.id
  }

  predicate DistinctPlanIds(plans: seq<Plan>)
  {
    forall i, j :: 0 <= i < j < |plans| ==> plans[i].id != plans[j].id
  }

  /** The positions of the cards that read "Current Plan". */
  function CurrentPlanCards(plans: seq<Plan>, user: Option<User>): set<int>
  {
    set i | 0 <= i < |plans| && IsCurrentPlan(user, plans[i])
  }

  /** With distinct plan ids at most one card reads "Current Plan"; exactly
      one does when the user's membership id is among the plan ids. */
  lemma AtMostOneCurrentPlan(plans: seq<Plan>, user: Option<User>)
    requires DistinctPlanIds(plans)
    ensures |CurrentPlanCards(plans, user)| <= 1
    ensures |CurrentPlanCards(plans, user)| == 1 <==>
      user.Some? && user.value.membership.Some? &&
      exists i :: 0 <= i < |plans| && plans[i].id == user.value.membership.value.id
  {
    var cards := CurrentPlanCards(plans, user);
    if user.Some? && user.value.membership.Some? &&
       exists i :: 0 <= i < |plans| && plans[i].id == user.value.membership.value.id {
      var i :| 0 <= i < |plans| && plans[i].id == user.value.membership.value.id;
      assert i in cards;
    }
    if cards != {} {
      var k :| k in cards;
      assert cards == {k};
    }
  }

  /** The page's own plans have distinct ids. */
  lemma PlansHaveDistinctIds()
    ensures DistinctPlanIds(Plans)
  {
    assert Plans[0].id == "1" && Plans[1].id == "2" && Plans[2].id == "3";
  }

  // ----------------------------------------------------------------- savings

  /** The amount on the "Save" badge. */
  function Savings(plan: Plan): real
  {
    plan.originalPrice - plan.price
  }

  /** The struck-through price and the savings badge appear only for a
      plan with a positive discount. */
  predicate ShowsSavings(plan: Plan)
  {
    plan.discount > 0.0
  }

  /** Every plan on the page costs less than its original price and has a
      discount within [0, 100]; the savings are shown for the weekly and
      monthly plans only, at 10.00 and 30.00. */
  lemma PlansSavePositive()
    ensures forall i :: 0 <= i < |Plans| ==>
      Savings(Plans[i]) > 0.0 && 0.0 <= Plans[i].discount <= 100.0
    ensures !ShowsSavings(Plans[0]) && ShowsSavings(Plans[1]) && ShowsSavings(Plans[2])
    ensures Savings(Plans[1]) == 10.0 && Savings(Plans[2]) == 30.0
  {
  }

  /** Each card agrees with the store's plan list on id, type, name, price,
      discount and deliveries; only the feature texts differ. */
  lemma PlansMatchSeed()
    ensures |Plans| == |SeedMemberships|
    ensures forall i :: 0 <= i < |Plans| ==>
      var m, seed := AsMembership(Plans[i]), SeedMemberships[i];
      m == seed.(features := m.features)
    ensures forall i :: 0 <= i < |Plans| ==> AsMembership(Plans[i]).features != SeedMemberships[i].features
  {
    assert Plans[0].features[0] != DailyFresh.features[0];
    assert |Plans[1].features| != |WeeklyBoost.features|;
    assert |Plans[2].features| != |MonthlyPremium.features|;
  }
}

=== FILE: products_page.dfy ===
/** The products page: the search-and-category filter over the catalog, the
    member price shown on each card, and the add-to-cart button. Lower-casing
    is modelled on ASCII letters only. */
module ProductsPage {
  import opened Types
  import opened Seqs
  import opened AppContext
  import opened CartPage

  // ------------------------------------------------------------------ search

  /** `toLowerCase` on one ASCII character. */
  function LowerChar(c: char): char
  {
    if 'A' <= c <= 'Z' then (c as int + 32) as char else c
  }

  function Lower(s: string): string
  {
    seq(|s|, i requires 0 <= i < |s| => LowerChar(s[i]))
  }

  predicate StartsWith(s: string, prefix: string)
  {
    |prefix| <= |s| && s[..|prefix|] == prefix
  }

  /** `s.includes(term)`, scanning the start positions of `s` in order. */
  predicate Includes(s: string, term: string)
    decreases |s|
  {
    StartsWith(s, term) || (s != [] && Includes(s[1..], term))
  }

  /** `term` is the slice of `s` that starts at position `i`. */
  ghost predicate OccursAt(term: string, s: string, i: int)
  {
    0 <= i && i + |term| <= |s| && s[i..i + |term|] == term
  }

  /** `term` is a contiguous slice of `s`. */
  ghost predicate OccursIn(term: string, s: string)
  {
    exists i :: OccursAt(term, s, i)
  }

  /** The scan finds `term` exactly when it occurs at some position of `s`. */
  lemma {:induction false} IncludesIffOccurs(s: string, term: string)
    ensures Includes(s, term) <==> OccursIn(term, s)
    decreases |s|
  {
    if StartsWith(s, term) {
      assert OccursAt(term, s, 0);
    } else if s == [] {
    } else {
      IncludesIffOccurs(s[1..], term);
      if Includes(s[1..], term) {
        var i :| OccursAt(term, s[1..], i);
        var a, b := s[1..][i..i + |term|], s[i + 1..i + 1 + |term|];
        forall k | 0 <= k < |a| ensures a[k] == b[k] { }
        assert a == b;
        assert OccursAt(term, s, i + 1);
      }
      if OccursIn(term, s) {
        var i :| OccursAt(term, s, i);
        assert i != 0;
        var a, b := s[1..][i - 1..i - 1 + |term|], s[i..i + |term|];
        forall k | 0 <= k < |a| ensures a[k] == b[k] { }
        assert a == b;
        assert OccursAt(term, s[1..], i - 1);
      }
    }
  }

  /** The filter's predicate: the lower-cased name or description contains
      the lower-cased search term, and the category is "all" or the
      product's own. */
  predicate Matches(p: Product, searchTerm: string, category: string)
  {
    var term := Lower(searchTerm);
    (Includes(Lower(p.name), term) || Includes(Lower(p.description), term)) &&
    (category == "all" || p.category == category)
  }

  /** `filteredProducts`. */
  function FilterProducts(products: seq<Product>, searchTerm: string, category: string): (r: seq<Product>)
    ensures |r| <= |products|
    ensures forall p :: p in r <==> p in products && Matches(p, searchTerm, category)
  {
    Filter(products, (p: Product) => Matches(p, searchTerm, category))
  }

  /** A product is listed exactly when it is in the catalog, its lower-cased
      name or description contains the lower-cased term somewhere, and the
      category is "all" or its own; the listing keeps catalog order. */
  lemma FilterProductsKeeps(products: seq<Product>, searchTerm: string, category: string)
    ensures forall p :: p in FilterProducts(products, searchTerm, category) <==>
      p in products &&
      (OccursIn(Lower(searchTerm), Lower(p.name)) || OccursIn(Lower(searchTerm), Lower(p.description))) &&
      (category == "all" || p.category == category)
    ensures IsSubsequence(FilterProducts(products, searchTerm, category), products)
    ensures forall p :: (multiset(FilterProducts(products, searchTerm, category))[p] ==
        if p in FilterProducts(products, searchTerm, category) then multiset(products)[p] else 0)
  {
    forall p | p in products
      ensures Matches(p, searchTerm, category) <==>
        (OccursIn(Lower(searchTerm), Lower(p.name)) || OccursIn(Lower(searchTerm), Lower(p.description))) &&
        (category == "all" || p.category == category)
    {
      IncludesIffOccurs(Lower(p.name), Lower(searchTerm));
      IncludesIffOccurs(Lower(p.description), Lower(searchTerm));
    }
    FilterIsSubsequence(products, (p: Product) => Matches(p, searchTerm, category));
    FilterMultiset(products, (p: Product) => Matches(p, searchTerm, category));
  }

  /** An empty search with category "all" lists the whole catalog. */
  lemma EmptySearchListsAll(products: seq<Product>)
    ensures FilterProducts(products, "", "all") == products
  {
    forall p | p in products ensures Matches(p, "", "all") {
      assert StartsWith(Lower(p.name), Lower(""));
    }
    FilterKeepsAll(products, (p: Product) => Matches(p, "", "all"));
  }

  /** Picking a category only narrows the "all" listing for the same search term. */
  lemma CategoryNarrowsAll(products: seq<Product>, searchTerm: string, category: string)
    ensures IsSubsequence(FilterProducts(products, searchTerm, category), FilterProducts(products, searchTerm, "all"))
  {
    FilterMonotone(products,
      (p: Product) => Matches(p, searchTerm, category),
      (p: Product) => Matches(p, searchTerm, "all"));
  }

  // ------------------------------------------------------------ member price

  /** `calculateDiscountedPrice`: the price less the membership discount, or
      the price unchanged when the discount is not positive. */
  function DiscountedPrice(price: real, user: Option<User>): (r: real)
    ensures MembershipDiscount(user) <= 0.0 ==> r == price
    ensures price >= 0.0 && MembershipDiscount(user) <= 100.0 ==> 0.0 <= r <= price
  {
    var d := MembershipDiscount(user);
    ScaledWithin(price, 1.0 - d / 100.0);
    if d > 0.0 then price * (1.0 - d / 100.0) else price
  }

  /** Whether the card shows the discount badge and the struck-through price. */
  predicate ShowsDiscount(user: Option<User>)
  {
    MembershipDiscount(user) > 0.0
  }

  /** For a discount within [0, 100] the member price is the price scaled by
      the remaining percentage, and lies between 0 and the price. */
  lemma DiscountedPriceBounds(price: real, user: Option<User>)
    requires price >= 0.0 && 0.0 <= MembershipDiscount(user) <= 100.0
    ensures DiscountedPrice(price, user) == price * (1.0 - MembershipDiscount(user) / 100.0)
    ensures 0.0 <= DiscountedPrice(price, user) <= price
  {
  }

  /** The badge is shown exactly when a positive price is actually reduced;
      without a membership neither happens. */
  lemma BadgeIffReduced(price: real, user: Option<User>)
    requires price > 0.0
    ensures ShowsDiscount(user) <==> DiscountedPrice(price, user) < price
    ensures user.None? || user.value.membership.None? ==>
      !ShowsDiscount(user) && DiscountedPrice(price, user) == price
  {
    var d := MembershipDiscount(user);
    if d > 0.0 {
      assert price * (d / 100.0) > 0.0;
    }
  }

  // ------------------------------------------------------------- add to cart

  /** The add-to-cart button dispatches the product itself: it lands in the
      cart whether or not it is in stock or in the catalog. */
  lemma AddToCartIgnoresStock(s: AppState, p: Product)
    ensures p.id in CartIds(Step(s, AddToCart(p)).cart)
    ensures Step(s, AddToCart(p)).products == s.products
  {
    if p.id !in CartIds(s.cart) {
      AddNewAppends(s, p);
      assert CartIds(Step(s, AddToCart(p)).cart)[|s.cart|] == p.id;
    } else {
      AddExistingIncrements(s, p);
    }
  }
}

=== FILE: seqs.dfy ===
/** Sequence operations shared by the cart, catalog and carousel models:
    order-preserving filtering (what `Array.prototype.filter` does) and the
    subsequence relation that states "same elements, catalog order kept". */
module Seqs {

  /** Keeps the elements that satisfy `keep`, in their original order. */
  function Filter<T(!new)>(s: seq<T>, keep: T -> bool): (r: seq<T>)
    ensures |r| <= |s|
    ensures forall x :: x in r <==> x in s && keep(x)
  {
    if s == [] then []
    else if keep(s[0]) then [s[0]] + Filter(s[1..], keep)
    else Filter(s[1..], keep)
  }

  /** `a` is obtained from `b` by deleting elements, without reordering. */
  ghost predicate IsSubsequence<T(!new)>(a: seq<T>, b: seq<T>)
    decreases |b|
  {
    a == [] ||
    (b != [] && ((a[0] == b[0] && IsSubsequence(a[1..], b[1..])) || IsSubsequence(a, b[1..])))
  }

  lemma {:induction false} SubsequenceMembers<T(!new)>(a: seq<T>, b: seq<T>)
    requires IsSubsequence(a, b)
    ensures forall x :: x in a ==> x in b
    decreases |b|
  {
    if a != [] {
      if a[0] == b[0] && IsSubsequence(a[1..], b[1..]) {
        SubsequenceMembers(a[1..], b[1..]);
        forall x | x in a ensures x in b {
          if x != a[0] { assert x in a[1..]; assert x in b[1..]; }
        }
      } else {
        SubsequenceMembers(a, b[1..]);
        forall x | x in a ensures x in b { assert x in b[1..]; }
      }
    }
  }

  lemma {:induction false} SubsequenceTransitive<T(!new)>(a: seq<T>, b: seq<T>, c: seq<T>)
    requires IsSubsequence(a, b) && IsSubsequence(b, c)
    ensures IsSubsequence(a, c)
    decreases |c|
  {
    if a != [] {
      if IsSubsequence(b, c[1..]) {
        SubsequenceTransitive(a, b, c[1..]);
      } else if a[0] == b[0] && IsSubsequence(a[1..], b[1..]) {
        SubsequenceTransitive(a[1..], b[1..], c[1..]);
      } else {
        SubsequenceTransitive(a, b[1..], c[1..]);
      }
    }
  }

  lemma {:induction false} SubsequenceReflexive<T(!new)>(s: seq<T>)
    ensures IsSubsequence(s, s)
  {
    if s != [] {
      SubsequenceReflexive(s[1..]);
    }
  }

  /** A prefix (what `slice(0, n)` returns) keeps order. */
  lemma {:induction false} PrefixIsSubsequence<T(!new)>(s: seq<T>, n: nat)
    requires n <= |s|
    ensures IsSubsequence(s[..n], s)
  {
    if n > 0 {
      PrefixIsSubsequence(s[1..], n - 1);
      assert s[..n][1..] == s[1..][..n - 1];
    }
  }

  lemma {:induction false} FilterIsSubsequence<T(!new)>(s: seq<T>, keep: T -> bool)
    ensures IsSubsequence(Filter(s, keep), s)
  {
    if s != [] {
      FilterIsSubsequence(s[1..], keep);
      if keep(s[0]) {
        assert ([s[0]] + Filter(s[1..], keep))[1..] == Filter(s[1..], keep);
      }
    }
  }

  /** A weaker filter keeps everything a stronger one keeps, in the same order. */
  lemma {:induction false} FilterMonotone<T(!new)>(s: seq<T>, strong: T -> bool, weak: T -> bool)
    requires forall x :: x in s && strong(x) ==> weak(x)
    ensures IsSubsequence(Filter(s, strong), Filter(s, weak))
  {
    if s != [] {
      FilterMonotone(s[1..], strong, weak);
      var a, b := Filter(s[1..], strong), Filter(s[1..], weak);
      if strong(s[0]) {
        assert ([s[0]] + a)[1..] == a;
        assert ([s[0]] + b)[1..] == b;
      } else if weak(s[0]) {
        assert ([s[0]] + b)[1..] == b;
      }
    }
  }

  /** Filtering is a no-op when every element is kept. */
  lemma {:induction false} FilterKeepsAll<T(!new)>(s: seq<T>, keep: T -> bool)
    requires forall x :: x in s ==> keep(x)
    ensures Filter(s, keep) == s
  {
    if s != [] {
      assert s[0] in s;
      FilterKeepsAll(s[1..], keep);
      assert [s[0]] + s[1..] == s;
    }
  }

  /** Filtering keeps every copy of a kept element and no copy of a dropped
      one. */
  lemma {:induction false} FilterMultiset<T(!new)>(s: seq<T>, keep: T -> bool)
    ensures forall x :: multiset(Filter(s, keep))[x] == if keep(x) then multiset(s)[x] else 0
  {
    if s != [] {
      FilterMultiset(s[1..], keep);
      assert s == [s[0]] + s[1..];
      assert multiset(s) == multiset{s[0]} + multiset(s[1..]);
      if keep(s[0]) {
        assert multiset(Filter(s, keep)) == multiset{s[0]} + multiset(Filter(s[1..], keep));
      }
    }
  }

  lemma FilterIdempotent<T(!new)>(s: seq<T>, keep: T -> bool)
    ensures Filter(Filter(s, keep), keep) == Filter(s, keep)
  {
    FilterKeepsAll(Filter(s, keep), keep);
  }

  /** A relation that holds between every earlier and later element of `s`
      still holds on what a filter keeps. */
  lemma {:induction false} FilterKeepsPairwise<T(!new)>(s: seq<T>, keep: T -> bool, rel: (T, T) -> bool)
    requires forall i, j :: 0 <= i < j < |s| ==> rel(s[i], s[j])
    ensures forall i, j :: 0 <= i < j < |Filter(s, keep)| ==> rel(Filter(s, keep)[i], Filter(s, keep)[j])
  {
    if s != [] {
      var t := s[1..];
      assert forall i, j :: 0 <= i < j < |t| ==> rel(t[i], t[j]) by {
        forall i, j | 0 <= i < j < |t| ensures rel(t[i], t[j]) {
          assert t[i] == s[i + 1] && t[j] == s[j + 1];
        }
      }
      FilterKeepsPairwise(t, keep, rel);
      var rest := Filter(t, keep);
      if keep(s[0]) {
        var r := [s[0]] + rest;
        forall i, j | 0 <= i < j < |r| ensures rel(r[i], r[j]) {
          if i == 0 {
            assert r[j] == rest[j - 1];
            assert r[j] in t;
            var k :| 0 <= k < |t| && t[k] == r[j];
            assert s[k + 1] == r[j];
          } else {
            assert r[i] == rest[i - 1] && r[j] == rest[j - 1];
          }
        }
      }
    }
  }
}

=== FILE: types.dfy ===
/** The storefront's domain records: users, membership plans, catalog
    products, cart lines, orders and the aggregate application state.
    Closed string unions of the source (`role`, membership `type`, order
    `status`) become enumerations, so "exactly one of" holds by construction;
    optional and nullable fields become `Option`. */
module Types {

  datatype Option<T> = None | Some(value: T)

  /** `User.role`: 'customer' | 'admin'. */
  datatype Role = Customer | Admin

  /** `Membership.type`: 'daily' | 'weekly' | 'monthly'. */
  datatype MembershipType = Daily | Weekly | Monthly

  /** A membership plan as attached to a user. Prices and the discount
      percentage are exact reals; the clock-valued `expiresAt` is not kept. */
  datatype Membership = Membership(
    id: string,
    kind: MembershipType,
    name: string,
    price: real,
    discount: real,
    features: seq<string>,
    deliveriesPerWeek: int,
    active: bool)

  datatype Nutrition = Nutrition(calories: int, fiber: int, vitaminC: int)

  datatype Product = Product(
    id: string,
    name: string,
    category: string,
    price: real,
    unit: string,
    image: string,
    description: string,
    inStock: bool,
    featured: bool,
    nutrition: Nutrition)

  /** `membership` and `avatar` are optional. */
  datatype User = User(
    id: string,
    name: string,
    email: string,
    role: Role,
    membership: Option<Membership>,
    avatar: Option<string>)

  /** A cart line is only a product and a quantity: the line is identified by
      `product.id`. The quantity is whatever the reducer was handed. */
  datatype CartItem = CartItem(product: Product, quantity: int)

  datatype OrderStatus = Pending | Confirmed | Processing | Delivered | Cancelled

  /** Orders are declared but no operation of the core creates one; the
      clock-valued `createdAt` and `deliveryDate` are not kept. */
  datatype Order = Order(
    id: string,
    userId: string,
    items: seq<CartItem>,
    total: real,
    status: OrderStatus,
    qrCodeUrl: Option<string>)

  /** The single store value: at most one signed-in user (`null` is `None`),
      the cart in insertion order, the catalog, orders and the plan list. */
  datatype AppState = AppState(
    user: Option<User>,
    cart: seq<CartItem>,
    products: seq<Product>,
    orders: seq<Order>,
    memberships: seq<Membership>)
}
